=== FILE: README.md ===
# GPUBurden, modelled in Dafny

GPUBurden is a Wayland background program. It puts a layer-shell surface behind the
desktop and animates it. The Rust sources hold five small pieces of sequential logic,
and this project models each one as pure Dafny functions over immutable records:

- **Monitor configuration** (`configuration.dfy`, module `Configuration`). Finding
  `gpuburden.toml` under `$XDG_CONFIG_HOME/gpuburden`, or under
  `$HOME/.config/gpuburden` when that variable is unset. Falling back to "no
  configuration" on any failure. Rewriting every monitor's shader path into the
  configuration directory. Looking a monitor up by name. The environment is a map,
  the filesystem is the set of paths that exist, and reading plus deserialising the
  TOML file is a function given as a parameter.
- **The wgpu renderer session** (`renderer.dfy`, module `Renderer`). Every wgpu object
  is an opaque token. The model tracks:
  - which optional resources are present;
  - the `surface_configured` flag;
  - the size and frame counter;
  - the shader source choice;
  - the 16-byte uniform block (`FragmentInputBuffer`) that `draw` writes.

  The predicate `Consistent` is the resource invariant. Every operation keeps it, and
  that is why the `expect`s in `draw` never fire.
- **Colours** (`colors.dfy`, module `Colors`). The constructors, and
  `get_wayland_color`, which packs ARGB into an `i32` through shifts that can reach
  the sign bit.
- **Gradients** (`color_ramp.dfy`, module `ColorRamps`). `linear_gradient`,
  `polylinear_gradient` and its segment layout, `ColorRamp::new`, and
  `get_color_at_point`. Two details of the source are kept:
  - The `take(1)` is a no-op, so interior control points appear twice.
  - A segment resolution of 1 divides 0.0 by 0.0. The resulting NaN casts to 0, so the
    segment is a single opaque black entry.
- **The CPU-drawn layer** (`wayland.dfy`, module `Wayland`). `draw` fills a
  shared-memory ARGB8888 buffer: red follows the column, green the row, blue is zero.
  It then sends damage, a frame callback, the attach and the commit. Protocol requests
  are recorded as a sequence. The buffer pool's and the compositor's answers are
  inputs. The `frame`, `configure` and `closed` handlers are modelled too.

Shared pieces:

- `ints.dfy` (module `Ints`): the fixed-width integer types, the two's-complement
  reading of 32 bits, and `to_le_bytes`.
- `floats.dfy` (module `Floats`): Rust's saturating float-to-int cast and `f32::round`,
  over exact reals.
- `wrappers.dfy` (module `Wrappers`): `Option` and `Result`.

A panic (`expect`, `unwrap`, an out-of-range index) becomes a `None` or a `Failure`
carrying the reason.

## Model

| member | source | states |
|---|---|---|
| Ints.Bits | src/color.rs:28-30 | Reading the bits of an `i32` back as two's complement gives the same `i32`. |
| Ints.AsI32 | src/color.rs:29 | Reading 32 bits as `i32` keeps values up to `i32::MAX` and subtracts 2^32 from the rest. The result is negative exactly when bit 31 is set. |
| Ints.BitsOfAsI32 | src/color.rs:29 | Reading a `u32` as `i32` and taking its bits back gives the original word. |
| Ints.FromLeBytes | src/renderer.rs:249 | Reassembling four little-endian bytes puts byte 0 in the low byte and byte 3 in the top byte. |
| Ints.LeBytesRoundTrip | src/wayland.rs:94 | `to_le_bytes` loses nothing: reassembling the four bytes gives back the word. |
| Ints.FromLeBytesRoundTrip | src/renderer.rs:249 | Every 4-byte sequence is the little-endian encoding of exactly one `u32`. |
| Floats.ToU32 | src/wayland.rs:88-89 | `as u32` keeps integers in range and sends negative values to 0. |
| Floats.RoundHalfAway | src/wayland.rs:88-89 | `f32::round` of a non-negative value is the integer within one half of it. A non-positive value rounds to a non-positive integer. |
| Floats.Ratio | src/wayland.rs:88-89 | A coordinate below a positive extent, divided by the extent, lies in [0, 1). It is 0 at coordinate 0. |
| Floats.Scale | src/color_ramp.rs:48 | Scaling by `len - 1` maps [0, 1] into [0, len - 1], maps 1 to `len - 1`, and keeps non-positive values non-positive. |
| Colors.New | src/color.rs:11-15 | The colour stores exactly the four given channels. |
| Colors.NewIsBijective | src/color.rs:11-15 | `new` is injective, and every colour is `new` of its own channels. |
| Colors.NewMono | src/color.rs:16-23 | The result is grey: r = g = b = mono. Its alpha is the given one. |
| Colors.GreyIffMono | src/color.rs:16-23 | The grey colours are exactly those `new_mono` can build. |
| Colors.FromTuple | src/color.rs:24-26 | The tuple's three entries become r, g and b in that order, and alpha is the given one. |
| Colors.FromTupleRoundTrip | src/color.rs:24-26 | Every colour is `from_tuple` of its own channels, and `from_tuple((r, g, b), a)` equals `new(r, g, b, a)`. |
| Colors.ShiftedByte | src/color.rs:29 | `i32::from(v) << k` is v·2^k for k < 24. For k = 24 its bit pattern is v·2^24, so the shift into the sign bit loses nothing. |
| Colors.WaylandColor | src/color.rs:28-30 | Read as 32-bit two's complement, the packed value is a·2^24 + r·2^16 + g·2^8 + b. No addition overflows `i32`. The value is negative exactly when a ≥ 128. |
| Colors.WaylandColorBytes | src/color.rs:28-30 | The packed value's little-endian bytes are b, g, r, a: each channel sits in its own byte. |
| Colors.WaylandColorRoundTrip | src/color.rs:28-30 | Decoding the channels from the packed bytes gives back the colour. |
| ColorRamps.StepBounds | src/color_ramp.rs:24-26 | The truncated step x·d div m lies in [0, d]. It is 0 at x = 0 and d at x = m. |
| ColorRamps.Lerp | src/color_ramp.rs:24-26 | With two or more entries, each channel lies between the start and end channel. It equals the start at entry 0 and the end at the last entry. With one entry, the NaN cast gives 0. |
| ColorRamps.LinearGradient | src/color_ramp.rs:20-31 | `linear_gradient(s, e, n)` has exactly n entries, each with alpha 255. It requires e ≥ s per channel only when n > 0, because the `u8` subtractions run inside the loop. |
| ColorRamps.LinearGradientEndpoints | src/color_ramp.rs:20-31 | A gradient of two or more entries starts at s and ends at e, both made opaque. |
| ColorRamps.LinearGradientBounded | src/color_ramp.rs:24-26 | With two or more entries, every entry lies channel-wise between s and e. |
| ColorRamps.LinearGradientOfOne | src/color_ramp.rs:23-27 | A one-entry gradient is opaque black, whatever the two colours. |
| ColorRamps.SegmentResolution | src/color_ramp.rs:34-35 | The per-segment resolution 64 / (len - 1), truncated, is at most 64. |
| ColorRamps.SegmentResolutionIsQuotient | src/color_ramp.rs:34-35 | p is the largest resolution whose segments fit into 64 entries. It is 0 exactly when there are more than 65 colours. |
| ColorRamps.Chain | src/color_ramp.rs:36-42 | The first k segments, concatenated, hold k·p entries, all with alpha 255. |
| ColorRamps.PolylinearGradient | src/color_ramp.rs:33-45 | `polylinear_gradient` returns (len - 1)·p colours, all with alpha 255. |
| ColorRamps.ChainPrefix | src/color_ramp.rs:38-42 | Appending later segments never changes the entries already in the result. |
| ColorRamps.ChainSegment | src/color_ramp.rs:36-42 | Within the first k segments, segment i starts right after the first i segments and is `linear_gradient(colors[i], colors[i+1], p)`. |
| ColorRamps.PolylinearLayout | src/color_ramp.rs:36-44 | The output has (len - 1)·p entries. Entries [i·p, (i+1)·p) are `linear_gradient(colors[i], colors[i+1], p)`. |
| ColorRamps.ChainBoundary | src/color_ramp.rs:39-41 | With p ≥ 2, the entries on both sides of the border between segments i - 1 and i are control point i. |
| ColorRamps.BoundaryDuplicated | src/color_ramp.rs:40-41 | Boundaries are not deduplicated: entries i·p - 1 and i·p are both control point i, made opaque. |
| ColorRamps.PolylinearEndpoints | src/color_ramp.rs:36-44 | With p ≥ 2, the gradient is non-empty. It starts at the first control point and ends at the last. |
| ColorRamps.NewRamp | src/color_ramp.rs:8-17 | `new` keeps the points unchanged and stores exactly `polylinear_gradient(points)`, with (len - 1)·p entries running from the first point to the last. It fails exactly when there are fewer than two points, where `colors[1]` panics. |
| ColorRamps.SampleIndex | src/color_ramp.rs:48 | `round(point·(len - 1)) as u32` is in range for a point in [0, 1]. It is 0 for points ≤ 0 and `len - 1` for 1.0. |
| ColorRamps.ColorAtPoint | src/color_ramp.rs:47-50 | `get_color_at_point` returns the gradient entry at the rounded index `round(point·(len - 1))`, and succeeds exactly when the gradient is non-empty and that index is in range. It gives the first entry at 0.0 and the last at 1.0. An empty gradient panics. |
| ColorRamps.RampEndpoints | src/color_ramp.rs:47-50 | On a freshly built ramp, sampling at 0.0 gives the first control point and sampling at 1.0 gives the last. |
| Configuration.MonitorConfigFor | src/configuration.rs:58-67 | `monitor_config(name)` returns a copy of the first monitor, in list order, whose name equals `name` exactly. It returns `None` exactly when no monitor has that name. |
| Configuration.PushPath | src/configuration.rs:92-93 | `PathBuf::push` ends with the component, and inserts a `/` unless the path is empty or already ends in one. |
| Configuration.LocateConfigPath | src/configuration.rs:69-90 | A located directory exists and ends in `/gpuburden`. |
| Configuration.XdgConfigHomeWins | src/configuration.rs:70-78 | With `XDG_CONFIG_HOME` set, the result does not depend on `HOME` at all. It is present exactly when `$XDG_CONFIG_HOME/gpuburden` exists, and it is then that path. |
| Configuration.HomeFallback | src/configuration.rs:79-89 | Without `XDG_CONFIG_HOME`, the only possible result is `$HOME/.config/gpuburden`, present exactly when that path exists. With neither variable there is none. |
| Configuration.LocateConfig | src/configuration.rs:91-99 | `locate_config(dir)` returns `dir/gpuburden.toml` exactly when that path exists. |
| Configuration.PrefixShaders | src/configuration.rs:50-54 | Every monitor keeps its name and position, and its shader becomes `"<dir>/<shader>"`. |
| Configuration.Load | src/configuration.rs:17-57 | `load` returns `None` exactly when one of these fails: no config directory, no `gpuburden.toml`, the builder, or the deserialiser. Otherwise it returns the parsed monitors with their shaders rewritten under the directory. |
| Configuration.LookupAfterLoad | src/configuration.rs:50-56 | Rewriting the shaders never changes which monitor a name finds, and the found shader lives under the directory. |
| Renderer.EncodeFragmentInput | src/renderer.rs:11-17 | The uniform block is 16 bytes: width, height, frame and seed in that order, each as four little-endian bytes, with no padding. |
| Renderer.FragmentInputRoundTrip | src/renderer.rs:11-17 | Decoding the block gives back the four fields. |
| Renderer.FragmentInputDecodeRoundTrip | src/renderer.rs:11-17 | Every 16-byte block encodes exactly one set of four fields. |
| Renderer.ShaderFor | src/renderer.rs:63-79 | The shader is the file's text exactly when a config exists and its file opens and reads. Otherwise it is `DEFAULT_SHADER`. |
| Renderer.ForLayer | src/renderer.rs:42-98 | Construction fails only on the three wgpu acquisitions, with the reason of the first one that fails, in source order. Otherwise the renderer holds the acquired surface, adapter, device and queue. It is fresh (sizes and frame 0, unconfigured, all four options `None`), consistent, and uses the chosen shader. |
| Renderer.ReconfigurePipeline | src/renderer.rs:118-210 | Sets a new uniform buffer initialised with the current width, height and frame and a seed below 1000000. Sets a bind group exposing that buffer at binding 0 with a 16-byte minimum binding size, and a pipeline from the renderer's shader and the surface format. Nothing else changes. |
| Renderer.ConfigureSurface | src/renderer.rs:100-116 | With wgpu calls after acquisition taken to succeed, `configure_surface` panics, with reason `NoSurfaceFormat`, exactly when the surface reports no format. Otherwise it sets the surface configuration and all three resources together and raises the flag. The result is consistent. Width, height, frame and shader are not assigned. |
| Renderer.Draw | src/renderer.rs:212-254 | `draw` raises the frame by exactly 1. A configured renderer issues exactly one draw call, 3 vertices and 1 instance, after setting its own pipeline and its bind group at slot 0. Before submit it writes the block (width, height, new frame, seed) at offset 0 of its own uniform buffer. An unconfigured one does neither. A consistent renderer never panics once the texture is acquired. |
| Renderer.DrawKeepsConsistent | src/renderer.rs:212-254 | `draw` preserves the resource invariant. |
| Renderer.ConsecutiveDraws | src/renderer.rs:242-250 | Two draws in a row write consecutive frame numbers. The second write replaces the first. |
| Renderer.ReconfigureReplacesResources | src/renderer.rs:100-116 | Configuring again rebuilds buffer, bind group and pipeline and leaves the flag set. The new ids differ from the old ones under the model's build counter, which stands in for wgpu object identity. |
| Renderer.LifecycleConsistent | src/renderer.rs:81-116 | From a fresh renderer, one draw succeeds and sets frame 1. After one configure, the first draw succeeds and writes the block (0, 0, 1, seed). |
| Wayland.Channel | src/wayland.rs:88-89 | `round(255·(c / extent)) as u32` is at most 255, and 0 at coordinate 0. |
| Wayland.PixelColor | src/wayland.rs:88-91 | In `(r << 16) + (g << 8) + 0`, red is in bits 16-23, green in bits 8-15, and both the blue byte and the top byte are zero. No bits are lost. |
| Wayland.ChunkCoordinates | src/wayland.rs:84-86 | For a chunk index below width·height, x = i mod width lies below width and y = i div width below height. |
| Wayland.ChunkPixel | src/wayland.rs:84-94 | Chunk i is the 4 little-endian bytes of the colour of pixel (i mod width, i div width). |
| Wayland.ChunkPixelLayout | src/wayland.rs:90-94 | Each pixel's bytes are [0, green of its row, red of its column, 0]. Blue and the top byte are zero. |
| Wayland.ColumnsAndRows | src/wayland.rs:88-89 | Red depends only on the column and green only on the row. |
| Wayland.FillCanvas | src/wayland.rs:83-95 | The loop fills 4·width·height bytes, and every 4-byte chunk is the pixel its index names. |
| Wayland.Draw | src/wayland.rs:75-101 | `draw` panics unless width and height fit in `i32`, and when the pool or the attach fails. Otherwise it appends exactly, in order: damage of the whole buffer, a frame callback, the attach of a width·height buffer with stride 4·width and painted pixels, and the commit. |
| Wayland.Frame | src/wayland.rs:18-20 | A frame callback performs a full `draw`: it succeeds exactly when `draw` would, and it appends damage, a frame callback, the attach of a painted buffer and the commit. The new frame callback keeps the animation going. |
| Wayland.Configure | src/wayland.rs:43-47 | `configure` adopts the event's new size and then draws at that size. It panics with `WidthTooLarge` or `HeightTooLarge` when the new size does not fit in `i32`. |
| Wayland.Closed | src/wayland.rs:39-41 | `closed` sets the close flag and changes nothing else. |
| Wayland.ClosedIdempotent | src/wayland.rs:39-41 | Closing twice is the same as closing once, and closing a closed state changes nothing. |

## Left out

- Everything inside wgpu is left out: instance, adapter and device acquisition, surface capabilities, shader compilation, pipeline descriptor contents, command encoding and present. Acquisition outcomes, the format list and texture availability are inputs. Resources are opaque tokens, and a build counter stands in for the identity of fresh objects.
- The Wayland connection, global binding, `SlotPool` allocation and the `blocking_dispatch` loop in `start` are left out (src/wayland.rs:111-145), and so are the empty seat, output and shm handlers. This is protocol plumbing. The pool's and the compositor's answers are inputs.
- The real filesystem, the process environment, and TOML parsing by the `config` crate are abstract: a set of existing paths, a map of variables, and a function from path to parse outcome. An environment variable that is not valid Unicode counts as unset.
- Floating-point arithmetic is idealised. Channel interpolation, `round(255·x/width)` and the sampling index are computed over exact reals, with Rust's saturating float-to-int casts. `f32` rounding error is not modelled. Infinite and NaN sample points cannot be expressed, except for the 0.0/0.0 case of a one-entry gradient, which is modelled.
- ColorRamps.Lerp: `f32` rounding of the interpolated value is not modelled. The model computes s + x·(e - s) div (n - 1) exactly, so an interior entry can differ by one from the `f32` result.
- ColorRamps.SegmentResolution: it is computed by integer division. This matches `64.0 / (len - 1.0)` in `f32` for every length whose count converts to `f32` exactly.
- ColorRamps.PolylinearGradient: it starts from an empty sequence and appends all segments. The source starts from the first segment and appends the rest. The two give the same sequence.
- ColorRamps.LinearGradient: the `u8` subtraction `ending - starting` is a precondition (e ≥ s per channel). It panics in debug builds and wraps in release builds, and the model does not choose between them.
- Renderer.ConfigureSurface: panics inside wgpu are not modelled. A user shader that fails WGSL validation (src/renderer.rs:121, 169) and `surface.configure` with a zero width or height (src/renderer.rs:112) reach wgpu's default error handler, which panics. The model takes these calls to succeed.
- Renderer.EncodeFragmentInput: `bytemuck::cast_slice` (src/renderer.rs:131, 249) writes native-endian bytes. The model assumes a little-endian target, and on a big-endian target each field's bytes would be reversed.
- Renderer.Draw: `self.frame += 1` needs `frame < u32::MAX` as a precondition, for the same debug-or-release reason.
- Wayland.Draw: the stride `width_int * 4` must fit in `i32` (precondition `StrideFits`), for the same reason.
- `ThreadRng` is left out beyond its range: the seeds `random_range(0..1000000)` produces are parameters of `ConfigureSurface`, `ReconfigurePipeline` and `Draw`.
- `println!` logging is left out.
- `src/main.rs` is left out. It is two lines of wiring, and its call to `start(config)` does not match the zero-argument `start` in src/wayland.rs:111.
- `Renderer::free_surface` (src/renderer.rs:256-258) only drops the surface and has no logical effect.
- The `close` flag is set by `closed`, but nothing in the sources reads it, so no behaviour hangs on it.

=== FILE: color_ramp.dfy ===
/** `ColorRamp` (src/color_ramp.rs): a polylinear gradient of 64 entries built from
    control points, and nearest-index sampling. The per-channel `f32` arithmetic is
    modelled with exact reals together with Rust's saturating float-to-int casts. */
module ColorRamps {
  import opened Ints
  import opened Wrappers
  import opened Colors
  import opened Floats

  /** Total number of gradient entries `polylinear_gradient` aims for. */
  const RESOLUTION: nat := 64

  /** The interpolation step `x / m * d` truncated, for 0 <= x <= m: in exact
      arithmetic it is `x * d div m`, and it runs from 0 to d. */
  lemma StepBounds(x: nat, d: nat, m: nat)
    requires 0 < m && x <= m
    ensures 0 <= (x * d) / m <= d
    ensures x == 0 ==> (x * d) / m == 0
    ensures x == m ==> (x * d) / m == d
  {
    MulMonotone(x, m, d);
    assert m * d == d * m;
    DivMonotone(x * d, m * d, m);
    MulDivCancel(m, d);
    assert x == 0 ==> x * d == 0;
  }

  /** One channel of entry `x` of `linear_gradient(s, e, n)`:
      `(s + x / (n - 1) * (e - s)) as u8`, whose truncation in exact arithmetic is
      `s + x * (e - s) div (n - 1)`. For n = 1 the quotient is 0.0 / 0.0, a NaN, and a
      NaN casts to 0. */
  function Lerp(s: U8, e: U8, x: nat, n: nat): (v: U8)
    requires s <= e && x < n
    ensures n >= 2 ==> s <= v <= e
    ensures n >= 2 && x == 0 ==> v == s
    ensures n >= 2 && x == n - 1 ==> v == e
    ensures n == 1 ==> v == 0
  {
    if n == 1 then 0
    else
      StepBounds(x, e - s, n - 1);
      s + (x * (e - s)) / (n - 1)
  }

  /** Subtracting the start channel from the end channel does not underflow `u8`. */
  predicate Ascending(s: Color, e: Color) {
    s.r <= e.r && s.g <= e.g && s.b <= e.b
  }

  /** The colour with `c`'s channels and full alpha. */
  function Opaque(c: Color): Color {
    c.(a := 0xFF)
  }

  /** `ColorRamp::linear_gradient(s, e, n)`: entry x interpolates each colour channel,
      alpha is always 255. The `u8` subtractions run once per entry, so they only
      constrain the colours when `n > 0`. */
  function LinearGradient(s: Color, e: Color, n: nat): (g: seq<Color>)
    requires n > 0 ==> Ascending(s, e)
    ensures |g| == n
    ensures forall x | 0 <= x < n :: g[x].a == 0xFF
  {
    seq(n, x requires 0 <= x < n => Color(Lerp(s.r, e.r, x, n), Lerp(s.g, e.g, x, n), Lerp(s.b, e.b, x, n), 0xFF))
  }

  /** A gradient of at least two entries starts at `s` and ends at `e`. */
  lemma LinearGradientEndpoints(s: Color, e: Color, n: nat)
    requires n >= 2 && Ascending(s, e)
    ensures LinearGradient(s, e, n)[0] == Opaque(s)
    ensures LinearGradient(s, e, n)[n - 1] == Opaque(e)
  {
  }

  /** Every entry of a gradient of at least two entries stays inside the channel-wise
      box between `s` and `e`. */
  lemma LinearGradientBounded(s: Color, e: Color, n: nat)
    requires n >= 2 && Ascending(s, e)
    ensures forall x | 0 <= x < n :: Ascending(s, LinearGradient(s, e, n)[x]) && Ascending(LinearGradient(s, e, n)[x], e)
  {
  }

  /** With a resolution of one, the only entry is opaque black, whatever the colours. */
  lemma LinearGradientOfOne(s: Color, e: Color)
    requires Ascending(s, e)
    ensures LinearGradient(s, e, 1) == [Color(0, 0, 0, 0xFF)]
  {
  }

  /** `64.0 / (len - 1.0)` truncated to `u32`; the quotient of two small integers in
      `f32` never crosses an integer boundary, so this is integer division. */
  function SegmentResolution(len: nat): (p: nat)
    requires len >= 2
    ensures p <= RESOLUTION
  {
    RESOLUTION / (len - 1)
  }

  /** The segments fill at most the 64 entries, and one more entry per segment
      would overshoot. */
  lemma SegmentResolutionIsQuotient(len: nat)
    requires len >= 2
    ensures SegmentResolution(len) * (len - 1) <= RESOLUTION < (SegmentResolution(len) + 1) * (len - 1)
    ensures SegmentResolution(len) == 0 <==> len > RESOLUTION + 1
  {
  }

  /** Every pair of neighbouring control points can be interpolated. */
  predicate AscendingSteps(colors: seq<Color>) {
    forall i | 0 <= i < |colors| - 1 :: Ascending(colors[i], colors[i + 1])
  }

  /** What `polylinear_gradient` demands of its argument: at least two colours
      (it indexes `colors[0]` and `colors[1]`), and ascending neighbours whenever
      the segments are not empty. */
  predicate GradientInput(colors: seq<Color>) {
    |colors| >= 2 && (SegmentResolution(|colors|) > 0 ==> AscendingSteps(colors))
  }

  /** The first `k` segments, each `p` long, concatenated in order: segment i runs from
      control point i to control point i + 1. */
  function Chain(colors: seq<Color>, p: nat, k: nat): (g: seq<Color>)
    requires k < |colors|
    requires p > 0 ==> AscendingSteps(colors)
    ensures |g| == k * p
    ensures forall x | 0 <= x < |g| :: g[x].a == 0xFF
    decreases k
  {
    if k == 0 then []
    else
      MulSucc(k - 1, p);
      Chain(colors, p, k - 1) + LinearGradient(colors[k - 1], colors[k], p)
  }

  /** `ColorRamp::polylinear_gradient`: the first segment, then each later one appended
      in turn. The `take(1)` in the loop builds an iterator and drops it, so nothing is
      removed between segments. */
  function PolylinearGradient(colors: seq<Color>): (g: seq<Color>)
    requires GradientInput(colors)
    ensures |g| == (|colors| - 1) * SegmentResolution(|colors|)
    ensures forall x | 0 <= x < |g| :: g[x].a == 0xFF
  {
    Chain(colors, SegmentResolution(|colors|), |colors| - 1)
  }

  /** Appending segments never changes the ones already there. */
  lemma {:induction false} ChainPrefix(colors: seq<Color>, p: nat, i: nat, k: nat)
    requires i <= k < |colors|
    requires p > 0 ==> AscendingSteps(colors)
    ensures |Chain(colors, p, i)| <= |Chain(colors, p, k)|
    ensures Chain(colors, p, k)[..|Chain(colors, p, i)|] == Chain(colors, p, i)
    decreases k
  {
    if i < k {
      ChainPrefix(colors, p, i, k - 1);
      var prev := Chain(colors, p, k - 1);
      assert Chain(colors, p, k)[..|prev|] == prev;
      assert Chain(colors, p, k)[..|Chain(colors, p, i)|] == prev[..|Chain(colors, p, i)|];
    }
  }

  /** Segment i of the first k sits right after the first i segments. */
  lemma ChainSegment(colors: seq<Color>, p: nat, i: nat, k: nat)
    requires i < k < |colors|
    requires p > 0 ==> AscendingSteps(colors)
    ensures |Chain(colors, p, i)| + p <= |Chain(colors, p, k)|
    ensures Chain(colors, p, k)[|Chain(colors, p, i)|..|Chain(colors, p, i)| + p]
         == LinearGradient(colors[i], colors[i + 1], p)
  {
    ChainPrefix(colors, p, i + 1, k);
    var before := Chain(colors, p, i);
    var upTo := Chain(colors, p, i + 1);
    assert upTo == before + LinearGradient(colors[i], colors[i + 1], p);
    assert Chain(colors, p, k)[|before|..|before| + p] == upTo[|before|..|before| + p];
  }

  /** The gradient has (len - 1) * p entries, and segment i, entries [i * p, (i + 1) * p),
      is the linear gradient from control point i to control point i + 1. */
  lemma PolylinearLayout(colors: seq<Color>, i: nat)
    requires GradientInput(colors) && i < |colors| - 1
    ensures |PolylinearGradient(colors)| == (|colors| - 1) * SegmentResolution(|colors|)
    ensures i * SegmentResolution(|colors|) + SegmentResolution(|colors|) <= |PolylinearGradient(colors)|
    ensures PolylinearGradient(colors)[i * SegmentResolution(|colors|)..i * SegmentResolution(|colors|) + SegmentResolution(|colors|)]
         == LinearGradient(colors[i], colors[i + 1], SegmentResolution(|colors|))
  {
    ChainSegment(colors, SegmentResolution(|colors|), i, |colors| - 1);
  }

  /** In the first k segments, the last entry of segment i - 1 and the first of
      segment i are both control point i. */
  lemma ChainBoundary(colors: seq<Color>, p: nat, i: nat, k: nat)
    requires p >= 2 && AscendingSteps(colors)
    requires 1 <= i < k < |colors|
    ensures 1 <= |Chain(colors, p, i)| < |Chain(colors, p, k)|
    ensures Chain(colors, p, k)[|Chain(colors, p, i)| - 1] == Opaque(colors[i])
    ensures Chain(colors, p, k)[|Chain(colors, p, i)|] == Opaque(colors[i])
  {
    var g := Chain(colors, p, k);
    var previous := |Chain(colors, p, i - 1)|;
    var start := |Chain(colors, p, i)|;
    assert start == previous + p;
    ChainSegment(colors, p, i - 1, k);
    ChainSegment(colors, p, i, k);
    var left := LinearGradient(colors[i - 1], colors[i], p);
    var right := LinearGradient(colors[i], colors[i + 1], p);
    LinearGradientEndpoints(colors[i - 1], colors[i], p);
    LinearGradientEndpoints(colors[i], colors[i + 1], p);
    assert g[previous..previous + p] == left;
    assert g[start - 1] == left[p - 1];
    assert g[start..start + p] == right;
    assert g[start] == right[0];
  }

  /** Each interior control point appears twice in a row: once closing its left
      segment and once opening its right one. */
  lemma BoundaryDuplicated(colors: seq<Color>, i: nat)
    requires GradientInput(colors) && SegmentResolution(|colors|) >= 2
    requires 1 <= i < |colors| - 1
    ensures 1 <= i * SegmentResolution(|colors|) < |PolylinearGradient(colors)|
    ensures PolylinearGradient(colors)[i * SegmentResolution(|colors|) - 1] == Opaque(colors[i])
    ensures PolylinearGradient(colors)[i * SegmentResolution(|colors|)] == Opaque(colors[i])
  {
    ChainBoundary(colors, SegmentResolution(|colors|), i, |colors| - 1);
  }

  /** With segments of two or more entries the gradient starts at the first control
      point and ends at the last one. */
  lemma PolylinearEndpoints(colors: seq<Color>)
    requires GradientInput(colors) && SegmentResolution(|colors|) >= 2
    ensures |PolylinearGradient(colors)| > 0
    ensures PolylinearGradient(colors)[0] == Opaque(colors[0])
    ensures PolylinearGradient(colors)[|PolylinearGradient(colors)| - 1] == Opaque(colors[|colors| - 1])
  {
    var p := SegmentResolution(|colors|);
    var k := |colors| - 1;
    var g := Chain(colors, p, k);
    ChainSegment(colors, p, 0, k);
    var last := |Chain(colors, p, k - 1)|;
    assert |g| == last + p;
    ChainSegment(colors, p, k - 1, k);
    var first := LinearGradient(colors[0], colors[1], p);
    var final := LinearGradient(colors[k - 1], colors[k], p);
    LinearGradientEndpoints(colors[0], colors[1], p);
    LinearGradientEndpoints(colors[k - 1], colors[k], p);
    assert g[0..p] == first;
    assert g[0] == first[0];
    assert g[last..last + p] == final;
    assert g[|g| - 1] == final[p - 1];
  }

  datatype ColorRamp = ColorRamp(points: seq<Color>, gradient: seq<Color>)

  /** `ColorRamp::new`: keeps the control points and precomputes their gradient,
      which runs from the first point to the last when segments have two or more
      entries. `None` stands for the panic of `polylinear_gradient` indexing
      `colors[1]` when there are fewer than two points. */
  function NewRamp(points: seq<Color>): (r: Option<ColorRamp>)
    requires |points| >= 2 ==> GradientInput(points)
    ensures r.None? <==> |points| < 2
    ensures r.Some? ==> r.value.points == points && r.value.gradient == PolylinearGradient(points)
    ensures r.Some? ==> |r.value.gradient| == (|points| - 1) * SegmentResolution(|points|)
    ensures r.Some? && SegmentResolution(|points|) >= 2 ==>
              && r.value.gradient[0] == Opaque(points[0])
              && r.value.gradient[|r.value.gradient| - 1] == Opaque(points[|points| - 1])
  {
    if |points| < 2 then None
    else if SegmentResolution(|points|) >= 2 then
      PolylinearEndpoints(points);
      Some(ColorRamp(points, PolylinearGradient(points)))
    else
      Some(ColorRamp(points, PolylinearGradient(points)))
  }

  /** The index `get_color_at_point` reads: `round(point * (len - 1)) as u32`. */
  function SampleIndex(point: real, len: nat): (i: nat)
    requires len > 0
    ensures 0.0 <= point <= 1.0 ==> i < len
    ensures point <= 0.0 ==> i == 0
    ensures point == 1.0 && len - 1 <= U32_MAX ==> i == len - 1
  {
    var f := Scale(point, len - 1);
    if point == 1.0 then
      FloorOfIntPlus(len - 1, 0.5);
      ToU32(RoundHalfAway(f))
    else
      ToU32(RoundHalfAway(f))
  }

  /** `ColorRamp::get_color_at_point`. `None` stands for the panic of an empty gradient
      (the `len() - 1` underflows) or an index past its end. */
  function ColorAtPoint(ramp: ColorRamp, point: real): (c: Option<Color>)
    ensures c.Some? ==> c.value in ramp.gradient
    ensures c.Some? ==>
              && 0 < |ramp.gradient| && SampleIndex(point, |ramp.gradient|) < |ramp.gradient|
              && c.value == ramp.gradient[SampleIndex(point, |ramp.gradient|)]
    ensures c.Some? <==> |ramp.gradient| > 0 && SampleIndex(point, |ramp.gradient|) < |ramp.gradient|
    ensures |ramp.gradient| > 0 && 0.0 <= point <= 1.0 ==> c.Some?
    ensures |ramp.gradient| > 0 && point <= 0.0 ==> c == Some(ramp.gradient[0])
    ensures 0 < |ramp.gradient| <= U32_MAX + 1 && point == 1.0 ==> c == Some(ramp.gradient[|ramp.gradient| - 1])
  {
    if |ramp.gradient| == 0 then None
    else
      var i := SampleIndex(point, |ramp.gradient|);
      if i < |ramp.gradient| then Some(ramp.gradient[i]) else None
  }

  /** Sampling a freshly built ramp at 0.0 gives the first control point and at 1.0 the
      last one, made opaque, once segments have two or more entries. */
  lemma RampEndpoints(points: seq<Color>)
    requires GradientInput(points) && SegmentResolution(|points|) >= 2
    ensures NewRamp(points).Some?
    ensures ColorAtPoint(NewRamp(points).value, 0.0) == Some(Opaque(points[0]))
    ensures ColorAtPoint(NewRamp(points).value, 1.0) == Some(Opaque(points[|points| - 1]))
  {
    var ramp := NewRamp(points).value;
    SegmentResolutionIsQuotient(|points|);
    assert |ramp.gradient| <= RESOLUTION;
  }
}

=== FILE: colors.dfy ===
/** `Color` (src/color.rs): four 8-bit channels and their packing into the
    32-bit ARGB value the Wayland shared-memory format expects. */
module Colors {
  import opened Ints

  datatype Color = Color(r: U8, g: U8, b: U8, a: U8)

  /** `Color::new`. */
  function New(r: U8, g: U8, b: U8, a: U8): (c: Color)
    ensures c.r == r && c.g == g && c.b == b && c.a == a
  {
    Color(r, g, b, a)
  }

  /** Every colour is built by `New` from its own channels, and `New` forgets nothing. */
  lemma NewIsBijective(c: Color, r: U8, g: U8, b: U8, a: U8)
    ensures New(c.r, c.g, c.b, c.a) == c
    ensures New(r, g, b, a) == c <==> (r, g, b, a) == (c.r, c.g, c.b, c.a)
  {
  }

  /** A grey colour: all three colour channels are equal. */
  predicate IsGrey(c: Color) {
    c.r == c.g == c.b
  }

  /** `Color::new_mono`: a grey of intensity `mono`. */
  function NewMono(mono: U8, a: U8): (c: Color)
    ensures IsGrey(c) && c.r == mono && c.a == a
  {
    Color(mono, mono, mono, a)
  }

  /** The greys are exactly the colours `NewMono` builds. */
  lemma GreyIffMono(c: Color)
    ensures IsGrey(c) <==> c == NewMono(c.r, c.a)
  {
  }

  /** `Color::from_tuple`: the tuple supplies r, g, b in that order. */
  function FromTuple(rgb: (U8, U8, U8), a: U8): (c: Color)
    ensures c.r == rgb.0 && c.g == rgb.1 && c.b == rgb.2 && c.a == a
  {
    New(rgb.0, rgb.1, rgb.2, a)
  }

  /** Every colour comes from the tuple of its own colour channels, and `from_tuple`
      agrees with `new` on the same channels. */
  lemma FromTupleRoundTrip(c: Color, r: U8, g: U8, b: U8, a: U8)
    ensures FromTuple((c.r, c.g, c.b), c.a) == c
    ensures FromTuple((r, g, b), a) == New(r, g, b, a)
  {
  }

  /** `i32::from(v) << k` for a byte `v` and k in {0, 8, 16, 24}: the low 32 bits of
      `v * 2^k`, read as `i32`. */
  function ShiftedByte(v: U8, k: nat): (s: I32)
    requires k == 0 || k == 8 || k == 16 || k == 24
    ensures k == 0 ==> s == v
    ensures k == 8 ==> s == v * 0x100
    ensures k == 16 ==> s == v * 0x1_0000
    ensures k == 24 ==> Bits(s) == v * 0x100_0000
  {
    var scaled := if k == 24 then v * 0x100_0000 else if k == 16 then v * 0x1_0000 else if k == 8 then v * 0x100 else v;
    assert 0 <= scaled < 0x1_0000_0000;
    AsI32(scaled % 0x1_0000_0000)
  }

  /** The unsigned ARGB8888 word: alpha in the top byte, then red, green, blue. */
  function Argb(c: Color): U32 {
    c.a * 0x100_0000 + c.r * 0x1_0000 + c.g * 0x100 + c.b
  }

  /** `Color::get_wayland_color`. The shift of alpha by 24 may set the sign bit;
      the three additions that follow never overflow `i32`. */
  function WaylandColor(c: Color): (p: I32)
    ensures Bits(p) == Argb(c)
    ensures p < 0 <==> c.a >= 0x80
  {
    var alpha := ShiftedByte(c.a, 24);
    var s1: I32 := alpha + ShiftedByte(c.r, 16);
    var s2: I32 := s1 + ShiftedByte(c.g, 8);
    s2 + ShiftedByte(c.b, 0)
  }

  /** The packed word's little-endian bytes are the channels in B, G, R, A order,
      so every channel is recovered from its byte. */
  lemma {:induction false} WaylandColorBytes(c: Color)
    ensures LeBytes(Bits(WaylandColor(c))) == [c.b, c.g, c.r, c.a]
  {
    var v := Argb(c);
    assert FromLeBytes([c.b, c.g, c.r, c.a]) == v;
    FromLeBytesRoundTrip([c.b, c.g, c.r, c.a]);
  }

  /** Decoding the four bytes of a packed word gives back the colour. */
  function FromWaylandColor(p: I32): (c: Color) {
    var b := LeBytes(Bits(p));
    Color(b[2], b[1], b[0], b[3])
  }

  lemma WaylandColorRoundTrip(c: Color)
    ensures FromWaylandColor(WaylandColor(c)) == c
  {
    WaylandColorBytes(c);
  }
}

=== FILE: configuration.dfy ===
/** `Configuration` (src/configuration.rs): which shader each monitor uses. The process
    environment is a map from variable name to value, the filesystem is the set `present` of
    paths that exist, and reading plus deserializing the TOML file is a given function
    from path to outcome; the decision logic around them is pure. */
module Configuration {
  import opened Wrappers

  datatype MonitorConfig = MonitorConfig(name: string, shader: string)

  datatype Config = Config(monitors: seq<MonitorConfig>)

  /** What the `config` crate makes of `gpuburden.toml`: the builder fails, the
      deserialization into `Config` fails, or it yields a configuration. */
  datatype Document = BuildFailed | DeserializeFailed | Parsed(config: Config)

  const CONFIG_FILE_NAME: string := "gpuburden.toml"

  predicate NoMonitorNamed(c: Config, name: string) {
    forall i | 0 <= i < |c.monitors| :: c.monitors[i].name != name
  }

  /** Monitor i is the first one, in list order, whose name is exactly `name`. */
  predicate FirstNamed(c: Config, name: string, i: int) {
    && 0 <= i < |c.monitors|
    && c.monitors[i].name == name
    && forall j | 0 <= j < i :: c.monitors[j].name != name
  }

  /** `Configuration::monitor_config`: a copy of the first monitor whose name equals
      `name`, or `None` when no monitor has that name. */
  method MonitorConfigFor(c: Config, name: string) returns (r: Option<MonitorConfig>)
    ensures r.None? <==> NoMonitorNamed(c, name)
    ensures r.Some? ==> exists i :: FirstNamed(c, name, i) && c.monitors[i] == r.value
  {
    for i := 0 to |c.monitors|
      invariant forall j | 0 <= j < i :: c.monitors[j].name != name
    {
      if c.monitors[i].name != name {
        continue;
      }
      assert FirstNamed(c, name, i);
      return Some(c.monitors[i]);
    }
    return None;
  }

  predicate EndsWith(s: string, suffix: string) {
    |suffix| <= |s| && s[|s| - |suffix|..] == suffix
  }

  /** `PathBuf::push` of a relative component: a separator is inserted unless the
      path is empty or already ends in one. */
  function PushPath(dir: string, component: string): (p: string)
    ensures EndsWith(p, component)
    ensures |dir| > 0 && dir[|dir| - 1] != '/' ==> p == dir + "/" + component
    ensures |dir| == 0 || dir[|dir| - 1] == '/' ==> p == dir + component
  {
    if |dir| == 0 || dir[|dir| - 1] == '/' then dir + component else dir + "/" + component
  }

  /** `Configuration::locate_config_path`. `XDG_CONFIG_HOME`, when set, is the only
      candidate; otherwise `HOME` gives `$HOME/.config/gpuburden`. The candidate must
      exist. (A variable whose value is not valid Unicode counts as unset.) */
  function LocateConfigPath(env: map<string, string>, present: set<string>): (r: Option<string>)
    ensures r.Some? ==> r.value in present && EndsWith(r.value, "/gpuburden")
  {
    if "XDG_CONFIG_HOME" in env then
      var path := env["XDG_CONFIG_HOME"] + "/gpuburden";
      if path in present then Some(path) else None
    else if "HOME" in env then
      var path := env["HOME"] + "/.config/gpuburden";
      if path in present then Some(path) else None
    else
      None
  }

  /** With `XDG_CONFIG_HOME` set, the answer is `$XDG_CONFIG_HOME/gpuburden` if that
      exists and `None` otherwise, whatever `HOME` says. */
  lemma XdgConfigHomeWins(env: map<string, string>, present: set<string>, home: string)
    requires "XDG_CONFIG_HOME" in env
    ensures LocateConfigPath(env, present) == LocateConfigPath(env["HOME" := home], present)
    ensures LocateConfigPath(env, present) == LocateConfigPath(env - {"HOME"}, present)
    ensures LocateConfigPath(env, present).Some?
        <==> env["XDG_CONFIG_HOME"] + "/gpuburden" in present
    ensures LocateConfigPath(env, present).Some? ==>
      LocateConfigPath(env, present).value == env["XDG_CONFIG_HOME"] + "/gpuburden"
  {
    assert "XDG_CONFIG_HOME" in env["HOME" := home];
    assert "XDG_CONFIG_HOME" in env - {"HOME"};
  }

  /** Without `XDG_CONFIG_HOME` the only candidate is `$HOME/.config/gpuburden`, and
      with neither variable there is no directory. */
  lemma HomeFallback(env: map<string, string>, present: set<string>)
    requires "XDG_CONFIG_HOME" !in env
    ensures "HOME" !in env ==> LocateConfigPath(env, present) == None
    ensures "HOME" in env ==>
      (LocateConfigPath(env, present).Some? <==> env["HOME"] + "/.config/gpuburden" in present)
    ensures LocateConfigPath(env, present).Some? ==>
      "HOME" in env && LocateConfigPath(env, present).value == env["HOME"] + "/.config/gpuburden"
  {
  }

  /** `Configuration::locate_config`: `dir/gpuburden.toml`, if it exists. */
  function LocateConfig(dir: string, present: set<string>): (r: Option<string>)
    ensures r.Some? <==> PushPath(dir, CONFIG_FILE_NAME) in present
    ensures r.Some? ==> r.value == PushPath(dir, CONFIG_FILE_NAME) && EndsWith(r.value, CONFIG_FILE_NAME)
  {
    var path := PushPath(dir, CONFIG_FILE_NAME);
    if path in present then Some(path) else None
  }

  /** `format!("{}/{}", dir, shader)` for every monitor, in list order. */
  function PrefixShaders(monitors: seq<MonitorConfig>, dir: string): (r: seq<MonitorConfig>)
    ensures |r| == |monitors|
    ensures forall i | 0 <= i < |r| ::
      r[i].name == monitors[i].name && r[i].shader == dir + "/" + monitors[i].shader
  {
    if monitors == [] then []
    else [MonitorConfig(monitors[0].name, dir + "/" + monitors[0].shader)] + PrefixShaders(monitors[1..], dir)
  }

  /** `loaded` is `parsed` with every shader path placed under `dir`. */
  predicate ShadersUnder(parsed: Config, loaded: Config, dir: string) {
    && |loaded.monitors| == |parsed.monitors|
    && forall i | 0 <= i < |parsed.monitors| ::
         loaded.monitors[i] == MonitorConfig(parsed.monitors[i].name, dir + "/" + parsed.monitors[i].shader)
  }

  /** `Configuration::load`: every failure on the way (no directory, no file, the
      builder, the deserializer) gives `None`; on success the shader paths are
      rewritten relative to the configuration directory. */
  function Load(env: map<string, string>, present: set<string>, read: string -> Document): (r: Option<Config>)
    ensures r.None? <==>
      || LocateConfigPath(env, present).None?
      || LocateConfig(LocateConfigPath(env, present).value, present).None?
      || !read(LocateConfig(LocateConfigPath(env, present).value, present).value).Parsed?
    ensures r.Some? ==>
      var dir := LocateConfigPath(env, present).value;
      ShadersUnder(read(PushPath(dir, CONFIG_FILE_NAME)).config, r.value, dir)
  {
    match LocateConfigPath(env, present)
    case None => None
    case Some(dir) =>
      match LocateConfig(dir, present)
      case None => None
      case Some(file) =>
        match read(file)
        case BuildFailed => None
        case DeserializeFailed => None
        case Parsed(config) => Some(Config(PrefixShaders(config.monitors, dir)))
  }

  /** Loading renames nothing: a monitor name is found in the loaded configuration
      exactly when it is in the parsed document, and its shader then lives under `dir`. */
  lemma LookupAfterLoad(parsed: Config, loaded: Config, dir: string, name: string, i: int)
    requires ShadersUnder(parsed, loaded, dir)
    ensures NoMonitorNamed(loaded, name) <==> NoMonitorNamed(parsed, name)
    ensures FirstNamed(loaded, name, i) <==> FirstNamed(parsed, name, i)
    ensures FirstNamed(loaded, name, i) ==> loaded.monitors[i].shader == dir + "/" + parsed.monitors[i].shader
  {
    if !NoMonitorNamed(parsed, name) {
      var k :| 0 <= k < |parsed.monitors| && parsed.monitors[k].name == name;
      assert loaded.monitors[k].name == name;
    }
    if !NoMonitorNamed(loaded, name) {
      var k :| 0 <= k < |loaded.monitors| && loaded.monitors[k].name == name;
      assert parsed.monitors[k].name == name;
    }
  }
}

=== FILE: floats.dfy ===
/** Rust's `f32` operations the model needs, over exact reals: the saturating
    float-to-integer casts and `f32::round`. Rounding error of `f32` arithmetic itself
    is not modelled. */
module Floats {
  import opened Ints

  lemma FloorOfIntPlus(k: int, frac: real)
    requires 0.0 <= frac < 1.0
    ensures ((k as real) + frac).Floor == k
  {
  }

  /** `f as u32` for an integral `f`: clamped to the range of `u32`. */
  function ToU32(i: int): (v: U32)
    ensures 0 <= i <= U32_MAX ==> v == i
    ensures i < 0 ==> v == 0
  {
    if i < 0 then 0 else if i > U32_MAX then U32_MAX else i
  }

  /** `f32::round`: to the nearest integer, halves away from zero. */
  function RoundHalfAway(f: real): (i: int)
    ensures f >= 0.0 ==> i >= 0 && (i as real) - 0.5 <= f < (i as real) + 0.5
    ensures f <= 0.0 ==> i <= 0
  {
    if f >= 0.0 then (f + 0.5).Floor else -((0.5 - f).Floor)
  }

  /** `t * n` for a real `t` and a whole number `n`. */
  function Scale(t: real, n: nat): (v: real)
    ensures 0.0 <= t <= 1.0 ==> 0.0 <= v <= n as real
    ensures t <= 0.0 ==> v <= 0.0
    ensures t == 1.0 ==> v == n as real
  {
    ScaleBounds(t, n as real);
    t * (n as real)
  }

  lemma ScaleBounds(t: real, d: real)
    requires d >= 0.0
    ensures 0.0 <= t <= 1.0 ==> 0.0 <= t * d <= d
    ensures t <= 0.0 ==> t * d <= 0.0
    ensures t == 1.0 ==> t * d == d
  {
    if 0.0 <= t <= 1.0 {
      assert t * d <= 1.0 * d;
    }
  }

  /** `c / extent` for a coordinate below a positive extent lies in [0, 1). */
  function Ratio(c: nat, extent: nat): (t: real)
    requires c < extent
    ensures 0.0 <= t < 1.0
    ensures c == 0 ==> t == 0.0
  {
    RatioBelowOne(c, extent);
    (c as real) / (extent as real)
  }

  lemma RatioBelowOne(c: nat, extent: nat)
    requires c < extent
    ensures 0.0 <= (c as real) / (extent as real) < 1.0
  {
    var t := (c as real) / (extent as real);
    assert t * (extent as real) == c as real;
  }
}

=== FILE: ints.dfy ===
/** Fixed-width integers of the source, as subset types of `int`, and the
    little-endian byte layout of a `u32` (`u32::to_le_bytes`). */
module Ints {

  type U8 = x: int | 0 <= x < 0x100
  type U32 = x: int | 0 <= x < 0x1_0000_0000
  type I32 = x: int | -0x8000_0000 <= x < 0x8000_0000

  const U32_MAX: int := 0xFFFF_FFFF
  const I32_MAX: int := 0x7FFF_FFFF

  /** Reads the 32 bits of an unsigned value as a two's-complement `i32`. */
  function AsI32(v: U32): (i: I32)
    ensures v <= I32_MAX ==> i == v
    ensures v > I32_MAX ==> i == v - 0x1_0000_0000
    ensures i < 0 <==> v >= 0x8000_0000
  {
    if v <= I32_MAX then v else v - 0x1_0000_0000
  }

  /** The bit pattern of an `i32`, read as unsigned. */
  function Bits(i: I32): (v: U32)
    ensures AsI32(v) == i
  {
    if i >= 0 then i else i + 0x1_0000_0000
  }

  lemma BitsOfAsI32(v: U32)
    ensures Bits(AsI32(v)) == v
  {
  }

  /** `v.to_le_bytes()`: least significant byte first. */
  function LeBytes(v: U32): (b: seq<U8>)
    ensures |b| == 4
  {
    [v % 0x100, (v / 0x100) % 0x100, (v / 0x1_0000) % 0x100, v / 0x100_0000]
  }

  /** `u32::from_le_bytes`. */
  function FromLeBytes(b: seq<U8>): (v: U32)
    requires |b| == 4
    ensures v % 0x100 == b[0]
    ensures v / 0x100_0000 == b[3]
  {
    b[0] as int + 0x100 * b[1] as int + 0x1_0000 * b[2] as int + 0x100_0000 * b[3] as int
  }

  lemma {:induction false} LeBytesRoundTrip(v: U32)
    ensures FromLeBytes(LeBytes(v)) == v
  {
    var q1 := v / 0x100;
    var q2 := v / 0x1_0000;
    assert q2 == q1 / 0x100;
    assert v == q1 * 0x100 + v % 0x100;
    assert q1 == q2 * 0x100 + q1 % 0x100;
    assert q2 == (v / 0x100_0000) * 0x100 + q2 % 0x100;
  }

  lemma {:induction false} FromLeBytesRoundTrip(b: seq<U8>)
    requires |b| == 4
    ensures LeBytes(FromLeBytes(b)) == b
  {
    var v := FromLeBytes(b);
    assert v / 0x100 == b[1] as int + 0x100 * b[2] as int + 0x1_0000 * b[3] as int;
    assert v / 0x1_0000 == b[2] as int + 0x100 * b[3] as int;
  }

  // Multiplication and division facts the solver does not find on its own.

  lemma MulMonotone(x: nat, y: nat, d: nat)
    requires x <= y
    ensures x * d <= y * d
  {
  }

  lemma MulSucc(q: nat, m: nat)
    ensures (q + 1) * m == q * m + m
  {
  }

  lemma MulDivCancel(m: nat, d: nat)
    requires m > 0
    ensures (m * d) / m == d
  {
    var q := (m * d) / m;
    var r := (m * d) % m;
    assert m * d == q * m + r && 0 <= r < m;
    assert d * m == m * d;
    if q < d {
      MulMonotone(q + 1, d, m);
      MulSucc(q, m);
    }
    if q > d {
      MulMonotone(d + 1, q, m);
      MulSucc(d, m);
    }
  }

  lemma DivMonotone(a: nat, b: nat, m: nat)
    requires m > 0 && a <= b
    ensures a / m <= b / m
  {
    var qa, ra := a / m, a % m;
    var qb, rb := b / m, b % m;
    assert a == qa * m + ra && 0 <= ra < m;
    assert b == qb * m + rb && 0 <= rb < m;
    if qa > qb {
      MulSucc(qb, m);
      MulMonotone(qb + 1, qa, m);
    }
  }
}

=== FILE: renderer.dfy ===
/** `Renderer` (src/renderer.rs): one wgpu drawing session. Every wgpu object is an
    opaque token; what is modelled is which of them are present, the configured flag,
    the size and frame counter, the shader source, and the bytes of the uniform block
    the fragment shader reads. */
module Renderer {
  import opened Ints
  import opened Wrappers
  import opened Configuration

  datatype Surface = Surface(id: nat)
  datatype Adapter = Adapter(id: nat)
  datatype Device = Device(id: nat)
  datatype Queue = Queue(id: nat)
  datatype TextureFormat = TextureFormat(id: nat)

  /** `DEFAULT_SHADER` (the shader compiled into the program) or a user-supplied WGSL text. */
  datatype ShaderSource = DefaultShader | Wgsl(code: string)

  /** What `File::open` followed by `read_to_string` gives for a path. */
  datatype ShaderFile = NotFound | Unreadable | Contents(text: string)

  /** Why a call panics: the `expect`s of the source and the `formats[0]` index. */
  datatype Panic =
    | SurfaceCreationFailed
    | NoCompatibleAdapter
    | DeviceRequestFailed
    | NoSurfaceFormat
    | NoSwapchainTexture
    | PipelineNotSet
    | FragmentBufferNotSet

  /** The seed is drawn with `random_range(0..1000000)`. */
  const SEED_BOUND: nat := 1000000
  type Seed = s: nat | s < SEED_BOUND

  /** `FragmentInputBuffer`: `#[repr(C)]`, four `u32`s with no padding. */
  datatype FragmentInput = FragmentInput(screenWidth: U32, screenHeight: U32, frame: U32, seed: U32)

  /** `size_of::<FragmentInputBuffer>()`, also the bind group's minimum binding size. */
  const UNIFORM_SIZE: nat := 16

  /** `bytemuck::cast_slice(&[input])` on a little-endian target. */
  function EncodeFragmentInput(u: FragmentInput): (b: seq<U8>)
    ensures |b| == UNIFORM_SIZE
    ensures b[0..4] == LeBytes(u.screenWidth) && b[4..8] == LeBytes(u.screenHeight)
    ensures b[8..12] == LeBytes(u.frame) && b[12..16] == LeBytes(u.seed)
  {
    var front := LeBytes(u.screenWidth) + LeBytes(u.screenHeight) + LeBytes(u.frame);
    assert (front + LeBytes(u.seed))[12..16] == LeBytes(u.seed);
    front + LeBytes(u.seed)
  }

  /** How the shader reads the block back. */
  function DecodeFragmentInput(b: seq<U8>): FragmentInput
    requires |b| == UNIFORM_SIZE
  {
    FragmentInput(FromLeBytes(b[0..4]), FromLeBytes(b[4..8]), FromLeBytes(b[8..12]), FromLeBytes(b[12..16]))
  }

  lemma {:induction false} FragmentInputRoundTrip(u: FragmentInput)
    ensures DecodeFragmentInput(EncodeFragmentInput(u)) == u
  {
    LeBytesRoundTrip(u.screenWidth);
    LeBytesRoundTrip(u.screenHeight);
    LeBytesRoundTrip(u.frame);
    LeBytesRoundTrip(u.seed);
  }

  lemma {:induction false} FragmentInputDecodeRoundTrip(b: seq<U8>)
    requires |b| == UNIFORM_SIZE
    ensures EncodeFragmentInput(DecodeFragmentInput(b)) == b
  {
    FromLeBytesRoundTrip(b[0..4]);
    FromLeBytesRoundTrip(b[4..8]);
    FromLeBytesRoundTrip(b[8..12]);
    FromLeBytesRoundTrip(b[12..16]);
    assert b == b[0..4] + b[4..8] + b[8..12] + b[12..16];
  }

  datatype SurfaceConfig = SurfaceConfig(format: TextureFormat, width: U32, height: U32)

  /** The uniform buffer and the bytes it holds. */
  datatype UniformBuffer = UniformBuffer(id: nat, contents: seq<U8>)

  /** The single-entry bind group: `binding` is the slot, `buffer` the uniform buffer it exposes. */
  datatype BindGroup = BindGroup(id: nat, binding: nat, buffer: nat, minBindingSize: nat)

  datatype Pipeline = Pipeline(id: nat, shader: ShaderSource, format: TextureFormat, vertexEntry: string, fragmentEntry: string)

  /** The `Renderer` struct. `builds` counts pipeline rebuilds; resources made by build
      number n carry id n, which stands in for the identity of a fresh wgpu object. The
      `ThreadRng` is replaced by the seeds the operations take. */
  datatype Renderer = Renderer(
    surface: Surface,
    adapter: Adapter,
    device: Device,
    queue: Queue,
    surfaceConfig: Option<SurfaceConfig>,
    fragmentBuffer: Option<UniformBuffer>,
    bindGroup: Option<BindGroup>,
    pipeline: Option<Pipeline>,
    shaderCode: ShaderSource,
    width: U32,
    height: U32,
    surfaceConfigured: bool,
    frame: U32,
    builds: nat)

  /** The resource invariant: a configured renderer has the surface configuration and all
      three pipeline resources, built together and wired to each other; an unconfigured
      one has none of them. */
  predicate Consistent(r: Renderer) {
    if r.surfaceConfigured then
      && r.surfaceConfig.Some? && r.fragmentBuffer.Some? && r.bindGroup.Some? && r.pipeline.Some?
      && r.fragmentBuffer.value.id == r.bindGroup.value.id == r.pipeline.value.id == r.builds
      && r.bindGroup.value == BindGroup(r.builds, 0, r.fragmentBuffer.value.id, UNIFORM_SIZE)
      && |r.fragmentBuffer.value.contents| == UNIFORM_SIZE
      && r.pipeline.value.shader == r.shaderCode
      && r.pipeline.value.format == r.surfaceConfig.value.format
    else
      r.surfaceConfig.None? && r.fragmentBuffer.None? && r.bindGroup.None? && r.pipeline.None?
  }

  /** The shader `for_layer` settles on: the configured file's contents if it opens and
      reads, and `DEFAULT_SHADER` otherwise (no configuration, open error, read error). */
  function ShaderFor(config: Option<MonitorConfig>, files: string -> ShaderFile): (s: ShaderSource)
    ensures s.Wgsl? <==> config.Some? && files(config.value.shader).Contents?
    ensures s.Wgsl? ==> s.code == files(config.value.shader).text
  {
    match config
    case None => DefaultShader
    case Some(monitor) =>
      match files(monitor.shader)
      case NotFound => DefaultShader
      case Unreadable => DefaultShader
      case Contents(text) => Wgsl(text)
  }

  /** What wgpu hands back when `for_layer` asks for a surface, an adapter and a device. */
  datatype GpuAcquisition = GpuAcquisition(surface: Option<Surface>, adapter: Option<Adapter>, device: Option<(Device, Queue)>)

  /** A renderer as `for_layer` leaves it: nothing configured, everything zero. */
  predicate Fresh(r: Renderer) {
    && r.width == 0 && r.height == 0 && r.frame == 0 && !r.surfaceConfigured
    && r.surfaceConfig.None? && r.fragmentBuffer.None? && r.bindGroup.None? && r.pipeline.None?
  }

  /** `Renderer::for_layer`. Only the three wgpu acquisitions can panic, in that order;
      a shader file that cannot be opened or read falls back to the default. */
  function ForLayer(gpu: GpuAcquisition, config: Option<MonitorConfig>, files: string -> ShaderFile): (r: Result<Renderer, Panic>)
    ensures r.Failure? <==> gpu.surface.None? || gpu.adapter.None? || gpu.device.None?
    ensures r.Failure? && gpu.surface.None? ==> r.error == SurfaceCreationFailed
    ensures r.Failure? && gpu.surface.Some? && gpu.adapter.None? ==> r.error == NoCompatibleAdapter
    ensures r.Failure? && gpu.surface.Some? && gpu.adapter.Some? ==> r.error == DeviceRequestFailed
    ensures r.Success? ==> Fresh(r.value) && Consistent(r.value)
    ensures r.Success? ==> r.value.shaderCode == ShaderFor(config, files)
    ensures r.Success? ==> r.value.surface == gpu.surface.value && r.value.device == gpu.device.value.0
    ensures r.Success? ==> r.value.adapter == gpu.adapter.value && r.value.queue == gpu.device.value.1
  {
    if gpu.surface.None? then Failure(SurfaceCreationFailed)
    else if gpu.adapter.None? then Failure(NoCompatibleAdapter)
    else if gpu.device.None? then Failure(DeviceRequestFailed)
    else
      Success(Renderer(
        gpu.surface.value, gpu.adapter.value, gpu.device.value.0, gpu.device.value.1,
        None, None, None, None,
        ShaderFor(config, files),
        0, 0, false, 0, 0))
  }

  /** `Renderer::reconfigure_pipeline`: builds a new uniform buffer initialised with the
      current size, frame and a fresh seed, a bind group exposing it at slot 0, and a
      pipeline from the renderer's shader and the surface format. The surface
      configuration must already be set (the source `expect`s it). */
  function ReconfigurePipeline(r: Renderer, seed: Seed): (r': Renderer)
    requires r.surfaceConfig.Some?
    ensures r'.builds == r.builds + 1
    ensures r'.fragmentBuffer.Some? && r'.bindGroup.Some? && r'.pipeline.Some?
    ensures |r'.fragmentBuffer.value.contents| == UNIFORM_SIZE
    ensures DecodeFragmentInput(r'.fragmentBuffer.value.contents) == FragmentInput(r.width, r.height, r.frame, seed)
    ensures r'.bindGroup.value == BindGroup(r'.builds, 0, r'.fragmentBuffer.value.id, UNIFORM_SIZE)
    ensures r'.pipeline.value.shader == r.shaderCode && r'.pipeline.value.format == r.surfaceConfig.value.format
    ensures r' == r.(fragmentBuffer := r'.fragmentBuffer, bindGroup := r'.bindGroup, pipeline := r'.pipeline, builds := r'.builds)
  {
    var id := r.builds + 1;
    var contents := EncodeFragmentInput(FragmentInput(r.width, r.height, r.frame, seed));
    FragmentInputRoundTrip(FragmentInput(r.width, r.height, r.frame, seed));
    r.(fragmentBuffer := Some(UniformBuffer(id, contents)),
       bindGroup := Some(BindGroup(id, 0, id, UNIFORM_SIZE)),
       pipeline := Some(Pipeline(id, r.shaderCode, r.surfaceConfig.value.format, "vs_main", "fs_main")),
       builds := id)
  }

  /** `Renderer::configure_surface`. With wgpu calls after acquisition taken to succeed,
      it panics only when the surface reports no texture format. Otherwise it sets the
      surface configuration, rebuilds the pipeline and sets the flag, from any starting
      state; size, frame and shader are left alone. */
  function ConfigureSurface(r: Renderer, width: U32, height: U32, formats: seq<TextureFormat>, seed: Seed): (c: Result<Renderer, Panic>)
    ensures c.Failure? <==> |formats| == 0
    ensures c.Failure? ==> c.error == NoSurfaceFormat
    ensures c.Success? ==>
      var r' := c.value;
      && Consistent(r')
      && r'.surfaceConfigured
      && r'.surfaceConfig == Some(SurfaceConfig(formats[0], width, height))
      && r'.builds == r.builds + 1
      && DecodeFragmentInput(r'.fragmentBuffer.value.contents) == FragmentInput(r.width, r.height, r.frame, seed)
      && (r'.width, r'.height, r'.frame, r'.shaderCode) == (r.width, r.height, r.frame, r.shaderCode)
      && (r'.surface, r'.adapter, r'.device, r'.queue) == (r.surface, r.adapter, r.device, r.queue)
  {
    if |formats| == 0 then Failure(NoSurfaceFormat)
    else
      var configured := r.(surfaceConfig := Some(SurfaceConfig(formats[0], width, height)));
      Success(ReconfigurePipeline(configured, seed).(surfaceConfigured := true))
  }

  /** The fixed clear colour of the render pass, `wgpu::Color::BLUE`. */
  datatype ClearColor = Blue

  /** The GPU work one `draw` issues, in issue order. */
  datatype GpuOp =
    | ClearPass(color: ClearColor)
    | SetPipeline(pipeline: nat)
    | SetBindGroup(slot: nat, group: Option<nat>)
    | DrawTriangles(vertices: nat, instances: nat)
    | WriteUniform(buffer: nat, offset: nat, bytes: seq<U8>)
    | Submit
    | Present

  /** A write of `bytes` at offset 0 of buffer `buffer` comes before the submit. */
  predicate WritesBeforeSubmit(ops: seq<GpuOp>, buffer: nat, bytes: seq<U8>) {
    exists w, s | 0 <= w < s < |ops| :: ops[w] == WriteUniform(buffer, 0, bytes) && ops[s] == Submit
  }

  /** Exactly one draw call, a 3-vertex, 1-instance one, issued after the pass has set
      `pipeline` and bound `group` at slot 0. */
  predicate DrawsOnceWith(ops: seq<GpuOp>, pipeline: nat, group: Option<nat>) {
    exists d | 0 <= d < |ops| ::
      && ops[d] == DrawTriangles(3, 1)
      && (forall j | 0 <= j < |ops| && ops[j].DrawTriangles? :: j == d)
      && SetPipeline(pipeline) in ops[..d]
      && SetBindGroup(0, group) in ops[..d]
  }

  predicate NoUniformWrite(ops: seq<GpuOp>) {
    forall i | 0 <= i < |ops| :: !ops[i].WriteUniform?
  }

  predicate NoDrawCall(ops: seq<GpuOp>) {
    forall i | 0 <= i < |ops| :: !ops[i].DrawTriangles?
  }

  /** `Renderer::draw`. After the swapchain texture is acquired the frame counter goes
      up by one; a configured renderer then draws one 3-vertex, 1-instance triangle and
      writes the uniform block with the new frame and a fresh seed; everything is then
      submitted and presented. `frame += 1` panics or wraps depending on the build,
      so the counter must have room. */
  function Draw(r: Renderer, textureAvailable: bool, seed: Seed): (d: Result<(Renderer, seq<GpuOp>), Panic>)
    requires r.frame < U32_MAX
    ensures !textureAvailable ==> d == Failure(NoSwapchainTexture)
    ensures Consistent(r) && textureAvailable ==> d.Success?
    ensures d.Success? ==>
      var (r', ops) := d.value;
      && r'.frame == r.frame + 1
      && r' == r.(frame := r'.frame, fragmentBuffer := r'.fragmentBuffer)
      && |ops| >= 3 && ops[0] == ClearPass(Blue) && ops[|ops| - 2] == Submit && ops[|ops| - 1] == Present
      && (r.surfaceConfigured ==>
            && r'.fragmentBuffer.Some? && r.fragmentBuffer.Some? && r'.fragmentBuffer.value.id == r.fragmentBuffer.value.id
            && WritesBeforeSubmit(ops, r.fragmentBuffer.value.id, r'.fragmentBuffer.value.contents)
            && |r'.fragmentBuffer.value.contents| == UNIFORM_SIZE
            && DecodeFragmentInput(r'.fragmentBuffer.value.contents) == FragmentInput(r.width, r.height, r.frame + 1, seed)
            && r.pipeline.Some?
            && DrawsOnceWith(ops, r.pipeline.value.id, if r.bindGroup.Some? then Some(r.bindGroup.value.id) else None))
      && (!r.surfaceConfigured ==> r' == r.(frame := r.frame + 1) && NoUniformWrite(ops) && NoDrawCall(ops))
  {
    if !textureAvailable then Failure(NoSwapchainTexture)
    else
      var frame := r.frame + 1;
      if !r.surfaceConfigured then
        Success((r.(frame := frame), [ClearPass(Blue), Submit, Present]))
      else if r.pipeline.None? then Failure(PipelineNotSet)
      else if r.fragmentBuffer.None? then Failure(FragmentBufferNotSet)
      else
        var input := FragmentInput(r.width, r.height, frame, seed);
        var bytes := EncodeFragmentInput(input);
        FragmentInputRoundTrip(input);
        var group := if r.bindGroup.Some? then Some(r.bindGroup.value.id) else None;
        var ops := [ClearPass(Blue), SetPipeline(r.pipeline.value.id), SetBindGroup(0, group), DrawTriangles(3, 1),
                    WriteUniform(r.fragmentBuffer.value.id, 0, bytes), Submit, Present];
        assert ops[..3][1] == SetPipeline(r.pipeline.value.id) && ops[..3][2] == SetBindGroup(0, group);
        assert ops[4] == WriteUniform(r.fragmentBuffer.value.id, 0, bytes) && ops[5] == Submit;
        Success((r.(frame := frame, fragmentBuffer := Some(r.fragmentBuffer.value.(contents := bytes))), ops))
  }

  /** `draw` keeps the resource invariant. */
  lemma DrawKeepsConsistent(r: Renderer, textureAvailable: bool, seed: Seed)
    requires r.frame < U32_MAX && Consistent(r) && textureAvailable
    ensures Draw(r, textureAvailable, seed).Success? && Consistent(Draw(r, textureAvailable, seed).value.0)
  {
  }

  /** Two successive draws of a configured renderer write the uniform block with two
      consecutive frame numbers, and the second write replaces the first. */
  lemma ConsecutiveDraws(r: Renderer, seed1: Seed, seed2: Seed)
    requires r.frame < U32_MAX - 1 && Consistent(r) && r.surfaceConfigured
    ensures
      var r1 := Draw(r, true, seed1).value.0;
      var r2 := Draw(r1, true, seed2).value.0;
      && DecodeFragmentInput(r1.fragmentBuffer.value.contents).frame == r.frame + 1
      && DecodeFragmentInput(r2.fragmentBuffer.value.contents).frame == r.frame + 2
      && DecodeFragmentInput(r2.fragmentBuffer.value.contents).seed == seed2
  {
    DrawKeepsConsistent(r, true, seed1);
  }

  /** Configuring a second time keeps the flag set and builds new resources: under the
      model's build counter, which stands in for wgpu object identity, their ids differ
      from the ones they replace. */
  lemma ReconfigureReplacesResources(r: Renderer, width: U32, height: U32, formats: seq<TextureFormat>, seed: Seed)
    requires Consistent(r) && r.surfaceConfigured && |formats| > 0
    ensures
      var r' := ConfigureSurface(r, width, height, formats, seed).value;
      && r'.surfaceConfigured
      && r'.fragmentBuffer.value.id != r.fragmentBuffer.value.id
      && r'.bindGroup.value.id != r.bindGroup.value.id
      && r'.pipeline.value.id != r.pipeline.value.id
  {
  }

  /** A fresh renderer can draw at once (frame 1), and after one configure its first draw
      succeeds and writes the block for frame 1. Longer runs follow from the `Consistent`
      ensures of `ConfigureSurface` and from `DrawKeepsConsistent`. */
  lemma LifecycleConsistent(gpu: GpuAcquisition, config: Option<MonitorConfig>, files: string -> ShaderFile,
                            width: U32, height: U32, formats: seq<TextureFormat>, seed: Seed, seed2: Seed)
    requires ForLayer(gpu, config, files).Success?
    ensures
      var created := ForLayer(gpu, config, files).value;
      && Draw(created, true, seed).Success?
      && Draw(created, true, seed).value.0.frame == 1
      && (|formats| > 0 ==>
            var c := ConfigureSurface(created, width, height, formats, seed).value;
            && Draw(c, true, seed2).Success?
            && DecodeFragmentInput(Draw(c, true, seed2).value.0.fragmentBuffer.value.contents)
               == FragmentInput(0, 0, 1, seed2))
  {
    var created := ForLayer(gpu, config, files).value;
    if |formats| > 0 {
      var c := ConfigureSurface(created, width, height, formats, seed).value;
      DrawKeepsConsistent(c, true, seed2);
    }
  }
}

=== FILE: wayland.dfy ===
/** `WaylandState` (src/wayland.rs): the layer-shell background surface drawn on the
    CPU into a shared-memory ARGB8888 buffer. Protocol requests are recorded in the
    order they are sent; what the compositor and the buffer pool answer is given as
    input. */
module Wayland {
  import opened Ints
  import opened Wrappers
  import opened Floats

  /** `wl_shm::Format::Argb8888`, the only format the source uses. */
  datatype ShmFormat = Argb8888

  datatype ShmBuffer = ShmBuffer(width: I32, height: I32, stride: I32, format: ShmFormat, pixels: seq<U8>)

  /** Requests sent on the layer's `wl_surface`. */
  datatype Request =
    | DamageBuffer(x: int, y: int, width: int, height: int)
    | FrameCallback
    | Attach(buffer: ShmBuffer)
    | Commit

  datatype WaylandState = WaylandState(width: U32, height: U32, close: bool, sent: seq<Request>)

  /** Why `draw` panics: the two `i32::try_from`s and the two fallible protocol steps. */
  datatype DrawPanic = WidthTooLarge | HeightTooLarge | BufferCreationFailed | AttachFailed

  /** What the slot pool and the compositor answer during one `draw`. */
  datatype Replies = Replies(bufferCreated: bool, attachAccepted: bool)

  /** `round(255 * (c / extent)) as u32` for the column or row `c`. */
  function Channel(c: nat, extent: nat): (v: U32)
    requires c < extent
    ensures v <= 0xFF
    ensures c == 0 ==> v == 0
  {
    var f := 255.0 * Ratio(c, extent);
    assert 0.0 <= f < 255.0;
    ToU32(RoundHalfAway(f))
  }

  /** `(r << 16) + (g << 8) + b` with r from the column, g from the row and b = 0.
      Both channels are at most 255, so neither the shifts nor the sum lose bits. */
  function PixelColor(x: nat, y: nat, width: nat, height: nat): (v: U32)
    requires x < width && y < height
    ensures v % 0x100 == 0 && v < 0x100_0000
    ensures (v / 0x100) % 0x100 == Channel(y, height)
    ensures v / 0x1_0000 == Channel(x, width)
  {
    Channel(x, width) * 0x1_0000 + Channel(y, height) * 0x100 + 0
  }

  lemma ChunkCoordinates(i: nat, width: nat, height: nat)
    requires i < width * height
    ensures width > 0 && i % width < width && i / width < height
  {
  }

  /** The four bytes of chunk i: pixel (i mod width, i div width), little-endian. */
  function ChunkPixel(i: nat, width: nat, height: nat): (b: seq<U8>)
    requires i < width * height
    ensures |b| == 4
  {
    ChunkCoordinates(i, width, height);
    LeBytes(PixelColor(i % width, i / width, width, height))
  }

  /** Byte 0 (blue) and byte 3 (the alpha position) are zero, byte 1 is the row's
      green and byte 2 the column's red. */
  lemma {:induction false} ChunkPixelLayout(i: nat, width: nat, height: nat)
    requires i < width * height
    ensures width > 0
    ensures ChunkPixel(i, width, height) == [0, Channel(i / width, height), Channel(i % width, width), 0]
  {
    ChunkCoordinates(i, width, height);
    var red := Channel(i % width, width);
    var green := Channel(i / width, height);
    assert FromLeBytes([0, green, red, 0]) == PixelColor(i % width, i / width, width, height);
    FromLeBytesRoundTrip([0, green, red, 0]);
  }

  /** Red follows the column and green the row: two chunks in the same column share
      their red byte, two in the same row their green byte. */
  lemma ColumnsAndRows(i: nat, j: nat, width: nat, height: nat)
    requires i < width * height && j < width * height
    ensures width > 0
    ensures i % width == j % width ==> ChunkPixel(i, width, height)[2] == ChunkPixel(j, width, height)[2]
    ensures i / width == j / width ==> ChunkPixel(i, width, height)[1] == ChunkPixel(j, width, height)[1]
  {
    ChunkPixelLayout(i, width, height);
    ChunkPixelLayout(j, width, height);
  }

  /** Every 4-byte chunk of `pixels` is the pixel its index names. */
  predicate Painted(pixels: seq<U8>, width: nat, height: nat) {
    && |pixels| == 4 * (width * height)
    && forall i | 0 <= i < width * height :: pixels[4 * i..4 * i + 4] == ChunkPixel(i, width, height)
  }

  /** The `chunks_exact_mut(4).enumerate().for_each(..)` loop over the pool's canvas. */
  method FillCanvas(width: U32, height: U32) returns (pixels: seq<U8>)
    ensures Painted(pixels, width, height)
  {
    pixels := [];
    var i := 0;
    while i < width * height
      invariant 0 <= i <= width * height
      invariant |pixels| == 4 * i
      invariant forall j | 0 <= j < i :: pixels[4 * j..4 * j + 4] == ChunkPixel(j, width, height)
    {
      var chunk := ChunkPixel(i, width, height);
      ghost var before := pixels;
      pixels := pixels + chunk;
      forall j | 0 <= j < i
        ensures pixels[4 * j..4 * j + 4] == ChunkPixel(j, width, height)
      {
        assert pixels[4 * j..4 * j + 4] == before[4 * j..4 * j + 4];
      }
      assert pixels[4 * i..4 * i + 4] == chunk;
      i := i + 1;
    }
  }

  /** The requests one successful `draw` sends: damage of the whole buffer, a frame
      callback, the attach of the freshly painted buffer, the commit. */
  predicate DrawRequests(rs: seq<Request>, width: U32, height: U32) {
    && |rs| == 4
    && rs[0] == DamageBuffer(0, 0, width, height)
    && rs[1] == FrameCallback
    && rs[2].Attach?
    && rs[2].buffer.width == width && rs[2].buffer.height == height
    && rs[2].buffer.stride == 4 * width && rs[2].buffer.format == Argb8888
    && Painted(rs[2].buffer.pixels, width, height)
    && rs[3] == Commit
  }

  /** What `draw` demands: once width and height fit in `i32`, the stride `width * 4`
      must too (it panics or wraps depending on the build). */
  predicate StrideFits(width: U32, height: U32) {
    width <= I32_MAX && height <= I32_MAX ==> 4 * width <= I32_MAX
  }

  /** `WaylandState::draw`. */
  method Draw(s: WaylandState, replies: Replies) returns (r: Result<WaylandState, DrawPanic>)
    requires StrideFits(s.width, s.height)
    ensures s.width > I32_MAX ==> r == Failure(WidthTooLarge)
    ensures s.width <= I32_MAX && s.height > I32_MAX ==> r == Failure(HeightTooLarge)
    ensures s.width <= I32_MAX && s.height <= I32_MAX ==>
      (r.Success? <==> replies.bufferCreated && replies.attachAccepted)
    ensures r.Success? ==>
      && (r.value.width, r.value.height, r.value.close) == (s.width, s.height, s.close)
      && |r.value.sent| == |s.sent| + 4
      && r.value.sent[..|s.sent|] == s.sent
      && DrawRequests(r.value.sent[|s.sent|..], s.width, s.height)
  {
    if s.width > I32_MAX {
      return Failure(WidthTooLarge);
    }
    if s.height > I32_MAX {
      return Failure(HeightTooLarge);
    }
    var stride := 4 * s.width;
    if !replies.bufferCreated {
      return Failure(BufferCreationFailed);
    }
    var pixels := FillCanvas(s.width, s.height);
    var buffer := ShmBuffer(s.width, s.height, stride, Argb8888, pixels);
    if !replies.attachAccepted {
      return Failure(AttachFailed);
    }
    var rs := [DamageBuffer(0, 0, s.width, s.height), FrameCallback, Attach(buffer), Commit];
    assert DrawRequests(rs, s.width, s.height);
    r := Success(s.(sent := s.sent + rs));
    assert r.value.sent[|s.sent|..] == rs;
  }

  /** `CompositorHandler::frame`: every frame callback draws again, and that draw asks
      for the next callback, so the animation never stops by itself. */
  method Frame(s: WaylandState, replies: Replies) returns (r: Result<WaylandState, DrawPanic>)
    requires StrideFits(s.width, s.height)
    ensures s.width <= I32_MAX && s.height <= I32_MAX ==>
      (r.Success? <==> replies.bufferCreated && replies.attachAccepted)
    ensures r.Success? ==>
      && (r.value.width, r.value.height, r.value.close) == (s.width, s.height, s.close)
      && |r.value.sent| == |s.sent| + 4
      && r.value.sent[..|s.sent|] == s.sent
      && DrawRequests(r.value.sent[|s.sent|..], s.width, s.height)
      && r.value.sent[|s.sent| + 1] == FrameCallback
      && r.value.sent[|r.value.sent| - 1] == Commit
  {
    r := Draw(s, replies);
    if r.Success? {
      assert DrawRequests(r.value.sent[|s.sent|..], s.width, s.height);
      assert r.value.sent[|s.sent|..][1] == r.value.sent[|s.sent| + 1];
    }
  }

  /** `LayerShellHandler::configure`: adopts the event's `new_size`, then draws at it. */
  method Configure(s: WaylandState, newSize: (U32, U32), replies: Replies) returns (r: Result<WaylandState, DrawPanic>)
    requires StrideFits(newSize.0, newSize.1)
    ensures newSize.0 > I32_MAX ==> r == Failure(WidthTooLarge)
    ensures newSize.0 <= I32_MAX && newSize.1 > I32_MAX ==> r == Failure(HeightTooLarge)
    ensures newSize.0 <= I32_MAX && newSize.1 <= I32_MAX ==>
      (r.Success? <==> replies.bufferCreated && replies.attachAccepted)
    ensures r.Success? ==>
      && r.value.width == newSize.0 && r.value.height == newSize.1 && r.value.close == s.close
      && |r.value.sent| == |s.sent| + 4
      && r.value.sent[..|s.sent|] == s.sent
      && DrawRequests(r.value.sent[|s.sent|..], newSize.0, newSize.1)
  {
    var resized := s.(width := newSize.0, height := newSize.1);
    r := Draw(resized, replies);
  }

  /** `LayerShellHandler::closed`: raises the close flag; size and sent requests stay. */
  function Closed(s: WaylandState): (r: WaylandState)
    ensures r.close
    ensures (r.width, r.height, r.sent) == (s.width, s.height, s.sent)
  {
    s.(close := true)
  }

  /** Closing twice is closing once, and closing a closed state changes nothing. */
  lemma ClosedIdempotent(s: WaylandState)
    ensures Closed(Closed(s)) == Closed(s)
    ensures s.close ==> Closed(s) == s
  {
  }
}

=== FILE: wrappers.dfy ===
/** Failure-carrying return values: `Option` for the source's `Option`, `Result` for
    operations that can panic (an `expect`, an out-of-bounds index). */
module Wrappers {

  datatype Option<+T> = None | Some(value: T)

  datatype Result<+T, +E> = Success(value: T) | Failure(error: E)
}
